=== FILE: README.md ===
# cec-notifications: a Dafny model of the queue-to-push relay

The system is a Go Lambda function. It receives batches of SQS messages, each
holding a JSON notification request, and sends each request as a Firebase Cloud
Messaging (FCM) notification. The records whose processing failed are reported
back to SQS for redelivery. This project models that decision layer as pure
functions over immutable datatypes and proves what it promises.

- `wrappers.dfy` (`Wrappers`): `Option` and `Result`, standing for Go's
  `error` and `(value, error)` returns.
- `sqs.dfy` (`Sqs`): the `NotificationMessage` record and `ParseSQSMessage`.
  JSON decoding is an oracle, `Decoder = string -> Option<WireObject>`, that
  gives each recognised member as present or absent. `FromWire` fills in Go's
  zero values for absent members. `ToWire` models the struct tags, including
  `omitempty`.
- `firebase.dfy` (`Firebase`): `InitializeFirebase` and `GetMessagingClient`.
  The package variables become an explicit `State` threaded through each call:
  - `once` is the `sync.Once` guard together with the outcome it recorded;
  - `client` is the `firebaseClient` cache.

  The environment and the set of files `os.Stat` can see make up `Env`.
  `firebase.NewApp` and `App.Messaging` are oracles in `Sdk`.
- `fcm.dfy` (`Fcm`): message building, `SendFCMNotification` and
  `SendFCMNotificationBatch`. `Client.Send` and `Client.SendAll` are oracles in
  `Transport`. Each report records what was handed to the provider (`attempted`),
  so "nothing is sent" can be stated. `CollectErrors` is the loop that gathers
  the failed entries of a batch response.
- `dispatcher.dfy` (`Dispatcher`): `ProcessMessage` (parse, then send) and
  `Handler`, the loop over a batch. `Run` is the reference fold that the loop is
  proved equal to.

What the code does, and so what the model does:
- Every parsed message is sent as one notification to its device token. The
  action type is only checked for being non-empty. The topic name is decoded
  but never used.
- Only the token and the action type are required, and the token is checked
  first. Title, body, topic name and data are optional.
- The failure list keeps the order of the records in the batch.
- Each record of a batch asks for a client again. `firebase.NewApp` runs at
  most once per process, under the once-guard. `App.Messaging` is called
  again until a client is cached. `Send` is called once per parsed record
  that obtained a client. So the answers of these calls may differ from
  record to record, and `Dispatcher.Run` and `Dispatcher.Handler` take a
  `Timeline`: one `World` (environment, SDK, provider) per record position.
  JSON decoding is one `Decoder` for the whole batch.

## Model

| member | source | states |
|---|---|---|
| Sqs.ParseSQSMessage | handlers/sqs.go:23-38 | A body that does not decode gives Malformed. An empty or absent token gives MissingToken. Otherwise an empty or absent action type gives MissingActionType. Parsing succeeds exactly when the decoded record has both fields, and then returns that record unchanged. |
| Sqs.FromWire | handlers/sqs.go:23-27 | Decoding into a fresh record: every member present on the wire is taken as is, every absent member keeps Go's zero value (""), and the data map is passed through, staying nil when absent. |
| Sqs.WireRoundTrip | handlers/sqs.go:9-20 | Encoding a record with its field tags and decoding it gives back the same record, except that an empty data map comes back nil (`omitempty` drops it). |
| Sqs.ParseEncoded | handlers/sqs.go:9-38 | A body that decodes to the encoding of a record parses exactly when the record has a token and an action type. It then yields the record, with an empty data map turned into nil. |
| Sqs.ParseOptionalFields | handlers/sqs.go:12-19 | On success, an absent title or body reads as "". An absent data map stays nil. Topic name, title, body and data are carried over unchanged when present. |
| Sqs.TokenCheckedFirst | handlers/sqs.go:30-35 | When both the token and the action type are missing or empty, the error reported is the token error. |
| Sqs.ActionTypeNotInspected | handlers/sqs.go:29-37 | Any non-empty action type passes. Changing only the action type changes only the action type of the parsed record. |
| Firebase.InitBody | config/firebase.go:24-61 | When configuration is wrong, the error is the first failing check in the order project id, credentials variable, credentials file. Success needs all three checks to pass and NewApp to succeed, and then returns NewApp's app. When the checks pass and NewApp fails, the error is NewAppFailed carrying NewApp's error. |
| Firebase.ConfigCheckedBeforeSdk | config/firebase.go:25-55 | A configuration failure gives the same outcome whatever the SDK would do, and it is never a NewApp error: the SDK is not reached. |
| Firebase.InitializeFirebase | config/firebase.go:23-64 | The outcome returned is the one recorded in the guard. A recorded outcome is returned with the state unchanged. The body runs only when nothing was recorded yet. The client cache is untouched. |
| Firebase.InitializeIdempotent | config/firebase.go:23-64 | A second call returns exactly what the first returned and changes nothing, whatever environment and SDK it is given. |
| Firebase.GetMessagingClient | config/firebase.go:67-87 | A cached client is returned with the state unchanged. Otherwise an initialization failure is returned as InitFailed with its cause. After a successful initialization the result is the app's Messaging client, or MessagingFailed with Messaging's error. On success the client returned is the one cached. On any failure the cache stays empty. |
| Firebase.CachedClientReturned | config/firebase.go:68-70 | Once a client is cached, every later call in any sequence returns that client and leaves the state unchanged. |
| Firebase.InitFailureSticks | config/firebase.go:23-75 | After a failed initialization, with no client cached, every later call returns that same failure and the state never changes. |
| Firebase.InitRunsOnce | config/firebase.go:24-63 | Over any sequence of client requests, the recorded initialization outcome is decided by the first call's environment and SDK alone, or is the one already recorded. |
| Firebase.CallsKeepConsistent | config/firebase.go:67-87 | Over any sequence of client requests, a client is cached only while a successful initialization is recorded, if that held at the start. |
| Firebase.ConsistentFromFresh | config/firebase.go:15-20 | The package variables start with nothing recorded and nothing cached, which is consistent. From there, every sequence of client requests keeps a cached client backed by a successful initialization. |
| Firebase.MessagingRetried | config/firebase.go:72-86 | A failed Messaging call leaves the state unchanged. A later call asks the cached app again and succeeds when Messaging does. |
| Fcm.BuildMessage | handlers/fcm.go:20-27 | The provider message carries the notification's token, its title and body as the notification part, and its data map. |
| Fcm.BuildMessageExact | handlers/fcm.go:20-27 | Two notifications give the same provider message exactly when they agree on token, title, body and data. |
| Fcm.BuildBatch | handlers/fcm.go:47-57 | There is one provider message per input, and the i-th is built from the i-th input. |
| Fcm.SendFCMNotification | handlers/fcm.go:13-37 | A client failure returns that error and sends nothing. Otherwise exactly the message built from the input is sent. The result is nil exactly when a client was obtained and Send succeeded. A failed Send is reported as ProviderFailed with Send's error, and a ProviderFailed result always carries Send's error. |
| Fcm.SendIgnoresRouting | handlers/fcm.go:19-30 | Two notifications that agree on token, title, body and data have the same send outcome, whatever their action type and topic name. |
| Fcm.FailedFrom | handlers/fcm.go:67-73 | The collected errors are no more than the responses examined, and each names a position of the response that did not succeed. |
| Fcm.FailedFromSound | handlers/fcm.go:67-75 | Each collected error names a failed response position and carries that response's error. Positions strictly increase. |
| Fcm.FailedFromComplete | handlers/fcm.go:67-75 | Every failed response position appears in the error list. |
| Fcm.FailedFromExact | handlers/fcm.go:67-75 | The error list names exactly the failed positions, in increasing order, each with its own error. |
| Fcm.NoErrorsIffAllSucceeded | handlers/fcm.go:67-75 | The error list is empty exactly when every response succeeded. |
| Fcm.CollectErrors | handlers/fcm.go:68-73 | The loop over the responses yields the reference list of failed entries. |
| Fcm.SendFCMNotificationBatch | handlers/fcm.go:40-76 | A client failure gives no error list, an error, and nothing sent. Otherwise the built batch is handed over. A SendAll failure gives that error. On success the error list is the failed entries of the response. |
| Dispatcher.ProcessMessage | main.go:35-51 | A parse failure fails the record, sends nothing and changes no state. A parsed record goes to SendFCMNotification, and a send failure is returned as DeliveryFailed wrapping SendFCMNotification's error. The record succeeds exactly when both parse and send succeed. At most one message is sent per record. |
| Dispatcher.ParsedRecordSentOnce | main.go:42-47 | When a record parses and a client is available, exactly its own message is sent, once, whatever its action type. |
| Dispatcher.Run | main.go:19-27 | Processing a batch, with each record seeing its own world, gives one failure flag per record and at most one provider message per record. |
| Dispatcher.RunFlagsProcessFailures | main.go:19-26 | The record at position i is flagged exactly when processing it fails, in the state left by the records before it. |
| Dispatcher.FlaggedPositionsExact | main.go:19-26 | The flagged positions are listed exactly once each, in increasing order. |
| Dispatcher.FailedIdsFollowPositions | main.go:23-25 | The k-th failure entry is the message id of the record at the k-th flagged position. |
| Dispatcher.Handler | main.go:14-33 | The error returned is always nil. The failure list is the reference list of failed record ids. The final provider state is the one the fold leaves. |
| Dispatcher.HandlerFailuresExact | main.go:17-32 | The failure list is no longer than the batch and follows record order. It names the record at position i exactly when processing that record failed. |
| Dispatcher.InitFailureFailsWholeBatch | main.go:19-27 | While initialization has failed and no client is cached, every record of a batch is reported failed, nothing is sent and the state stays the same. |
| Dispatcher.MessagingFailureRecoversWithinBatch | main.go:19-27 | When Messaging fails for the first record and succeeds for the second, with Send succeeding, only the first record is listed and the client ends up cached. |

## Left out

- JSON decoding (`encoding/json`) is an oracle. Its rules are not modelled:
  case-insensitive member names, duplicate members, and type mismatches.
  A `null` member is treated like an absent one.
- The Firebase SDK and its wire protocol (`NewApp`, `Messaging`, `Send`,
  `SendAll`) are oracles: deterministic functions of their arguments within one
  call. Transient failures are modelled by giving each call its own `Sdk` and
  `Transport`. Within a batch this is one `World` per record position.
- `os.Stat` is membership in `Env.files`. Stat failures other than a missing
  file, such as permissions, count as "not found", as the code treats them.
- The concurrency of `sync.Once` and the unguarded read of `firebaseClient` are
  not modelled. Calls are sequential.
- Fcm.SendFCMNotificationBatch: nil entries in the `[]*NotificationMessage`
  argument are not modelled. The Go code panics on them while building the
  messages (`msg.FCMToken`), after `GetMessagingClient` may already have
  changed the cache. A Dafny `seq<NotificationMessage>` cannot hold nil.
- The `successCount` of a batch response is only logged, so it is not used.
- Logging, `context.Context`, `lambda.Start` and `main` are left out.
- Error texts are left out. Errors are distinct tags. They keep the causes
  that `NewApp`, `Messaging`, `Send` and `SendAll` return. `Malformed` does not
  carry the JSON decoder's error, because the decoder oracle only says whether
  a body decodes. `CredentialsNotFound` carries the path but not `os.Stat`'s
  error.

=== FILE: dispatcher.dfy ===
/** The queue handler (main.go): every record of a batch is parsed and sent
    as one notification, and the ids of the records for which that failed
    are returned for redelivery. The batch as a whole never fails. */
module Dispatcher {
  import opened Wrappers
  import opened Sqs
  import opened Firebase
  import opened Fcm

  datatype SQSMessage = SQSMessage(messageId: string, body: string)

  datatype BatchItemFailure = BatchItemFailure(itemIdentifier: string)

  datatype SQSEventResponse = SQSEventResponse(batchItemFailures: seq<BatchItemFailure>)

  /** The services outside the process that one record's delivery talks to:
      the `Call` a client request sees (environment and SDK), together with
      the provider's `Transport`. JSON decoding is not among them: it is one
      fixed `Decoder` for a batch. */
  datatype World = World(env: Env, sdk: Sdk, transport: Transport)

  /** The outside world as the record at each position of a batch sees it.
      Each record asks for a client again: `App.Messaging` is called again
      until a client is cached, and `Send` once per parsed record, so their
      answers may differ from record to record. `NewApp` runs at most once,
      under the once-guard, whichever position first reaches it. */
  type Timeline = nat -> World

  datatype ProcessError = ParseFailed(parseError: ParseError) | DeliveryFailed(sendError: SendError)

  datatype ProcessReport = ProcessReport(st: State, attempted: seq<FcmMessage>, result: Option<ProcessError>)

  /** Parse one record, then send it as a single notification. */
  function ProcessMessage(st: State, decode: Decoder, w: World, record: SQSMessage): (r: ProcessReport)
    ensures ParseSQSMessage(decode, record.body).Err? ==>
              r == ProcessReport(st, [], Some(ParseFailed(ParseSQSMessage(decode, record.body).error)))
    ensures ParseSQSMessage(decode, record.body).Ok? ==>
              var sent := SendFCMNotification(st, w.env, w.sdk, w.transport, ParseSQSMessage(decode, record.body).value);
              && r.st == sent.st && r.attempted == sent.attempted
              && r.result == (if sent.result.None? then None else Some(DeliveryFailed(sent.result.value)))
    ensures r.result.None? <==>
              ParseSQSMessage(decode, record.body).Ok?
              && SendFCMNotification(st, w.env, w.sdk, w.transport, ParseSQSMessage(decode, record.body).value).result.None?
    ensures |r.attempted| <= 1
  {
    match ParseSQSMessage(decode, record.body)
    case Err(e) => ProcessReport(st, [], Some(ParseFailed(e)))
    case Ok(msg) =>
      var sent := SendFCMNotification(st, w.env, w.sdk, w.transport, msg);
      match sent.result
      case Some(e) => ProcessReport(sent.st, sent.attempted, Some(DeliveryFailed(e)))
      case None => ProcessReport(sent.st, sent.attempted, None)
  }

  /** A record that parses is handed to the provider as exactly its own
      message, once, whatever its action type, as soon as a client is at hand. */
  lemma ParsedRecordSentOnce(st: State, decode: Decoder, w: World, record: SQSMessage)
    requires ParseSQSMessage(decode, record.body).Ok?
    requires GetMessagingClient(st, w.env, w.sdk).result.Ok?
    ensures ProcessMessage(st, decode, w, record).attempted == [BuildMessage(ParseSQSMessage(decode, record.body).value)]
  {
  }

  /** The state of a batch after its first records: the provider state, one
      failure flag per record, and every message handed to the provider. */
  datatype BatchRun = BatchRun(st: State, failed: seq<bool>, attempted: seq<FcmMessage>)

  /** The records processed in order, each with the state the previous left. */
  function Run(st: State, decode: Decoder, worlds: Timeline, records: seq<SQSMessage>): (r: BatchRun)
    ensures |r.failed| == |records|
    ensures |r.attempted| <= |records|
    decreases |records|
  {
    if records == [] then BatchRun(st, [], [])
    else
      var n := |records| - 1;
      var before := Run(st, decode, worlds, records[..n]);
      var p := ProcessMessage(before.st, decode, worlds(n), records[n]);
      BatchRun(p.st, before.failed + [p.result.Some?], before.attempted + p.attempted)
  }

  /** The record at position `i` is flagged exactly when processing it,
      in the state left by the records before it, failed. */
  lemma RunFlagsProcessFailures(st: State, decode: Decoder, worlds: Timeline, records: seq<SQSMessage>, i: nat, run: BatchRun)
    requires i < |records|
    requires run == Run(st, decode, worlds, records)
    ensures run.failed[i] <==>
              ProcessMessage(Run(st, decode, worlds, records[..i]).st, decode, worlds(i), records[i]).result.Some?
  {
    RunPrefix(st, decode, worlds, records, i + 1);
    RunExtends(st, decode, worlds, records, i);
    var before := Run(st, decode, worlds, records[..i]);
    var after := Run(st, decode, worlds, records[..i + 1]);
    assert after.failed[i] == ProcessMessage(before.st, decode, worlds(i), records[i]).result.Some?;
    assert run.failed[i] == after.failed[i];
  }

  /** Later records do not change the flags of earlier ones: the run over the
      first `j` records gives the first `j` flags of the whole run. */
  lemma {:induction false} RunPrefix(st: State, decode: Decoder, worlds: Timeline, records: seq<SQSMessage>, j: nat)
    requires j <= |records|
    ensures Run(st, decode, worlds, records[..j]).failed == Run(st, decode, worlds, records).failed[..j]
    decreases |records|
  {
    if j < |records| {
      var n := |records| - 1;
      RunPrefix(st, decode, worlds, records[..n], j);
      assert records[..n][..j] == records[..j];
      RunDropLast(st, decode, worlds, records);
    } else {
      assert records[..j] == records;
    }
  }

  /** Dropping the last record drops only the last flag. */
  lemma RunDropLast(st: State, decode: Decoder, worlds: Timeline, records: seq<SQSMessage>)
    requires records != []
    ensures Run(st, decode, worlds, records).failed[..|records| - 1]
            == Run(st, decode, worlds, records[..|records| - 1]).failed
  {
  }

  /** One more record: the run over the first `i + 1` records extends the
      run over the first `i` by processing record `i`. */
  lemma RunExtends(st: State, decode: Decoder, worlds: Timeline, records: seq<SQSMessage>, i: nat)
    requires i < |records|
    ensures var before := Run(st, decode, worlds, records[..i]);
            var p := ProcessMessage(before.st, decode, worlds(i), records[i]);
            var after := Run(st, decode, worlds, records[..i + 1]);
            && after.st == p.st
            && after.failed == before.failed + [p.result.Some?]
            && after.failed[..i] == before.failed
            && FailedIds(records[..i + 1], after.failed)
               == FailedIds(records[..i], before.failed)
                  + (if p.result.Some? then [BatchItemFailure(records[i].messageId)] else [])
  {
    assert records[..i + 1][..i] == records[..i];
  }

  /** The failure entries for the flagged records, in record order. */
  function FailedIds(records: seq<SQSMessage>, failed: seq<bool>): seq<BatchItemFailure>
    requires |failed| == |records|
    decreases |records|
  {
    if records == [] then []
    else
      var n := |records| - 1;
      FailedIds(records[..n], failed[..n])
      + (if failed[n] then [BatchItemFailure(records[n].messageId)] else [])
  }

  /** The positions of the flagged records, in increasing order. */
  function FlaggedPositions(failed: seq<bool>): seq<nat>
    decreases |failed|
  {
    if failed == [] then []
    else
      var n := |failed| - 1;
      FlaggedPositions(failed[..n]) + (if failed[n] then [n] else [])
  }

  /** The positions are exactly the flagged ones, strictly increasing. */
  lemma {:induction false} FlaggedPositionsExact(failed: seq<bool>)
    ensures var pos := FlaggedPositions(failed);
      && (forall k :: 0 <= k < |pos| ==> pos[k] < |failed| && failed[pos[k]])
      && (forall j, k :: 0 <= j < k < |pos| ==> pos[j] < pos[k])
      && (forall i :: 0 <= i < |failed| ==> (failed[i] <==> i in pos))
    decreases |failed|
  {
    if failed != [] {
      var n := |failed| - 1;
      FlaggedPositionsExact(failed[..n]);
      var prev := FlaggedPositions(failed[..n]);
      var pos := prev + (if failed[n] then [n] else []);
      forall i | 0 <= i < |failed|
        ensures failed[i] <==> i in pos
      {
        if i < n {
          assert failed[..n][i] == failed[i];
        }
      }
    }
  }

  /** The failure list holds, for each flagged position in order, the id of
      the record at that position, and nothing else. */
  lemma {:induction false} FailedIdsFollowPositions(records: seq<SQSMessage>, failed: seq<bool>)
    requires |failed| == |records|
    ensures var ids := FailedIds(records, failed); var pos := FlaggedPositions(failed);
      && |ids| == |pos|
      && (forall k :: 0 <= k < |ids| ==>
            pos[k] < |records| && ids[k].itemIdentifier == records[pos[k]].messageId)
    decreases |records|
  {
    FlaggedPositionsExact(failed);
    if records != [] {
      var n := |records| - 1;
      FailedIdsFollowPositions(records[..n], failed[..n]);
      FlaggedPositionsExact(failed[..n]);
    }
  }

  /** Handle one batch: process every record and list the failed ones. */
  method Handler(st: State, decode: Decoder, worlds: Timeline, records: seq<SQSMessage>)
    returns (response: SQSEventResponse, err: Option<string>, st': State)
    ensures err.None?
    ensures response.batchItemFailures == FailedIds(records, Run(st, decode, worlds, records).failed)
    ensures st' == Run(st, decode, worlds, records).st
  {
    var failures: seq<BatchItemFailure> := [];
    var cur := st;
    for i := 0 to |records|
      invariant cur == Run(st, decode, worlds, records[..i]).st
      invariant failures == FailedIds(records[..i], Run(st, decode, worlds, records[..i]).failed)
    {
      var p := ProcessMessage(cur, decode, worlds(i), records[i]);
      RunExtends(st, decode, worlds, records, i);
      if p.result.Some? {
        failures := failures + [BatchItemFailure(records[i].messageId)];
      }
      cur := p.st;
    }
    assert records[..|records|] == records;
    response := SQSEventResponse(failures);
    err := None;
    st' := cur;
  }

  /** The failure list of a batch: no longer than the batch, in record order,
      and it names the record at position i exactly when processing that
      record failed. */
  lemma HandlerFailuresExact(st: State, decode: Decoder, worlds: Timeline, records: seq<SQSMessage>, run: BatchRun)
    requires run == Run(st, decode, worlds, records)
    ensures var ids := FailedIds(records, run.failed); var pos := FlaggedPositions(run.failed);
      && |ids| <= |records|
      && |ids| == |pos|
      && (forall k :: 0 <= k < |ids| ==> pos[k] < |records| && ids[k].itemIdentifier == records[pos[k]].messageId)
      && (forall j, k :: 0 <= j < k < |pos| ==> pos[j] < pos[k])
      && (forall i :: 0 <= i < |records| ==>
            (i in pos <==> ProcessMessage(Run(st, decode, worlds, records[..i]).st, decode, worlds(i), records[i]).result.Some?))
  {
    FlaggedPositionsExact(run.failed);
    FailedIdsFollowPositions(records, run.failed);
    var pos := FlaggedPositions(run.failed);
    forall i | 0 <= i < |records|
      ensures i in pos <==> ProcessMessage(Run(st, decode, worlds, records[..i]).st, decode, worlds(i), records[i]).result.Some?
    {
      RunFlagsProcessFailures(st, decode, worlds, records, i, run);
    }
    StrictlyIncreasingBounded(pos, |records|);
  }

  /** A strictly increasing list of positions below `n` has at most `n` entries. */
  lemma {:induction false} StrictlyIncreasingBounded(pos: seq<nat>, n: nat)
    requires forall k :: 0 <= k < |pos| ==> pos[k] < n
    requires forall j, k :: 0 <= j < k < |pos| ==> pos[j] < pos[k]
    ensures |pos| <= n
    decreases n
  {
    if pos != [] {
      var last := |pos| - 1;
      assert forall k :: 0 <= k < last ==> pos[..last][k] < pos[last];
      StrictlyIncreasingBounded(pos[..last], pos[last]);
    }
  }

  /** While initialization has failed and no client is cached, every record
      of a batch is reported failed and the state does not change. */
  lemma {:induction false} InitFailureFailsWholeBatch(st: State, decode: Decoder, worlds: Timeline, records: seq<SQSMessage>, e: InitError)
    requires st.once == Some(Err(e)) && st.client.None?
    ensures Run(st, decode, worlds, records).st == st
    ensures forall i :: 0 <= i < |records| ==> Run(st, decode, worlds, records).failed[i]
    ensures Run(st, decode, worlds, records).attempted == []
    decreases |records|
  {
    if records != [] {
      var n := |records| - 1;
      InitFailureFailsWholeBatch(st, decode, worlds, records[..n], e);
    }
  }

  /** A Messaging failure is not sticky inside a batch: after the first
      record fails for want of a client, the next record asks the app again
      and goes through when Messaging and Send then succeed. */
  lemma MessagingFailureRecoversWithinBatch(st: State, decode: Decoder, worlds: Timeline, r0: SQSMessage, r1: SQSMessage, app: App, client: Client)
    requires st.once == Some(Ok(app)) && st.client.None?
    requires worlds(0).sdk.messaging(app).Err?
    requires ParseSQSMessage(decode, r1.body).Ok?
    requires worlds(1).sdk.messaging(app) == Ok(client)
    requires worlds(1).transport.send(client, BuildMessage(ParseSQSMessage(decode, r1.body).value)).Ok?
    ensures Run(st, decode, worlds, [r0, r1]).failed == [true, false]
    ensures Run(st, decode, worlds, [r0, r1]).st == State(Some(Ok(app)), Some(client))
  {
    var recs := [r0, r1];
    assert recs[..1] == [r0];
    assert [r0][..0] == [];
    assert Run(st, decode, worlds, [r0][..0]) == BatchRun(st, [], []);
    var p0 := ProcessMessage(st, decode, worlds(0), r0);
    assert p0.st == st && p0.result.Some?;
    var first := Run(st, decode, worlds, [r0]);
    assert first == BatchRun(p0.st, [] + [true], [] + p0.attempted);
    assert first.st == st && first.failed == [true];
    var second := ProcessMessage(first.st, decode, worlds(1), r1);
    assert second.st == State(Some(Ok(app)), Some(client)) && second.result.None?;
    assert Run(st, decode, worlds, recs) == BatchRun(second.st, first.failed + [false], first.attempted + second.attempted);
  }
}

=== FILE: fcm.dfy ===
/** Building provider messages and sending them (handlers/fcm.go).

    `Client.Send` and `Client.SendAll` are oracles in a `Transport`. Each
    report records what was handed to the provider, so that "nothing was
    sent" can be stated. */
module Fcm {
  import opened Wrappers
  import opened Sqs
  import opened Firebase

  datatype Notification = Notification(title: string, body: string)

  datatype FcmMessage = FcmMessage(token: string, notification: Notification, data: Option<Payload>)

  /** One entry of a batch response. */
  datatype SendResponse = SendResponse(success: bool, messageId: string, error: string)

  datatype BatchResponse = BatchResponse(successCount: nat, responses: seq<SendResponse>)

  datatype Transport = Transport(
    send: (Client, FcmMessage) -> Result<string, string>,
    sendAll: (Client, seq<FcmMessage>) -> Result<BatchResponse, string>)

  datatype SendError = ClientUnavailable(clientError: ClientError) | ProviderFailed(cause: string)

  /** A failed entry of a batch, tagged with its position in the response. */
  datatype IndexedError = IndexedError(index: nat, cause: string)

  datatype SendReport = SendReport(st: State, attempted: seq<FcmMessage>, result: Option<SendError>)

  datatype BatchReport = BatchReport(
    st: State,
    attempted: Option<seq<FcmMessage>>,
    result: Result<seq<IndexedError>, SendError>)

  /** The provider message for one notification: token, title, body and data
      are copied; action type and topic name are not used. */
  function BuildMessage(m: NotificationMessage): (r: FcmMessage)
    ensures r.token == m.fcmToken
    ensures r.notification == Notification(m.title, m.body)
    ensures r.data == m.data
  {
    FcmMessage(m.fcmToken, Notification(m.title, m.body), m.data)
  }

  /** Two notifications give the same provider message exactly when they
      agree on token, title, body and data: nothing else is read, and nothing
      of those four is lost. */
  lemma BuildMessageExact(a: NotificationMessage, b: NotificationMessage)
    ensures BuildMessage(a) == BuildMessage(b) <==>
              a.fcmToken == b.fcmToken && a.title == b.title && a.body == b.body && a.data == b.data
  {
  }

  /** One provider message per notification, in order. */
  function BuildBatch(msgs: seq<NotificationMessage>): (r: seq<FcmMessage>)
    ensures |r| == |msgs|
    ensures forall i :: 0 <= i < |msgs| ==> r[i] == BuildMessage(msgs[i])
  {
    if msgs == [] then [] else [BuildMessage(msgs[0])] + BuildBatch(msgs[1..])
  }

  /** Get the client, then send one message built from `m`. */
  function SendFCMNotification(st: State, env: Env, sdk: Sdk, tr: Transport, m: NotificationMessage): (r: SendReport)
    ensures r.st == GetMessagingClient(st, env, sdk).st
    ensures GetMessagingClient(st, env, sdk).result.Err? ==>
              r.attempted == [] && r.result == Some(ClientUnavailable(GetMessagingClient(st, env, sdk).result.error))
    ensures GetMessagingClient(st, env, sdk).result.Ok? ==> r.attempted == [BuildMessage(m)]
    ensures r.result.None? <==>
              GetMessagingClient(st, env, sdk).result.Ok?
              && tr.send(GetMessagingClient(st, env, sdk).result.value, BuildMessage(m)).Ok?
    ensures r.result.Some? && r.result.value.ProviderFailed? ==>
              tr.send(GetMessagingClient(st, env, sdk).result.value, BuildMessage(m))
              == Err(r.result.value.cause)
    ensures GetMessagingClient(st, env, sdk).result.Ok?
            && tr.send(GetMessagingClient(st, env, sdk).result.value, BuildMessage(m)).Err? ==>
              r.result == Some(ProviderFailed(tr.send(GetMessagingClient(st, env, sdk).result.value, BuildMessage(m)).error))
  {
    var got := GetMessagingClient(st, env, sdk);
    match got.result
    case Err(e) => SendReport(got.st, [], Some(ClientUnavailable(e)))
    case Ok(client) =>
      var message := BuildMessage(m);
      match tr.send(client, message)
      case Err(cause) => SendReport(got.st, [message], Some(ProviderFailed(cause)))
      case Ok(_) => SendReport(got.st, [message], None)
  }

  /** Sending does not depend on the action type or topic name: two
      notifications that agree on token, title, body and data have the same
      outcome. */
  lemma SendIgnoresRouting(st: State, env: Env, sdk: Sdk, tr: Transport, a: NotificationMessage, b: NotificationMessage)
    requires a.fcmToken == b.fcmToken && a.title == b.title && a.body == b.body && a.data == b.data
    ensures SendFCMNotification(st, env, sdk, tr, a) == SendFCMNotification(st, env, sdk, tr, b)
  {
  }

  /** The failed entries of `rs` from position `from` on, in position order. */
  function FailedFrom(rs: seq<SendResponse>, from: nat): (r: seq<IndexedError>)
    requires from <= |rs|
    ensures |r| <= |rs| - from
    ensures forall k :: 0 <= k < |r| ==> from <= r[k].index < |rs| && !rs[r[k].index].success
    decreases |rs| - from
  {
    if from == |rs| then []
    else if rs[from].success then FailedFrom(rs, from + 1)
    else [IndexedError(from, rs[from].error)] + FailedFrom(rs, from + 1)
  }

  function Indices(errs: seq<IndexedError>): seq<nat> {
    seq(|errs|, k requires 0 <= k < |errs| => errs[k].index)
  }

  /** Every entry of `errs` names a failed position of `rs` at or after
      `from` and carries that position's error; positions strictly increase. */
  predicate ReportsFailuresFrom(rs: seq<SendResponse>, from: nat, errs: seq<IndexedError>) {
    && (forall k :: 0 <= k < |errs| ==>
          from <= errs[k].index < |rs| && !rs[errs[k].index].success
          && errs[k].cause == rs[errs[k].index].error)
    && (forall j, k :: 0 <= j < k < |errs| ==> errs[j].index < errs[k].index)
  }

  lemma {:induction false} FailedFromSound(rs: seq<SendResponse>, from: nat)
    requires from <= |rs|
    ensures ReportsFailuresFrom(rs, from, FailedFrom(rs, from))
    decreases |rs| - from
  {
    if from < |rs| {
      FailedFromSound(rs, from + 1);
      var tail := FailedFrom(rs, from + 1);
      assert ReportsFailuresFrom(rs, from + 1, tail);
      if !rs[from].success {
        var errs := [IndexedError(from, rs[from].error)] + tail;
        assert forall k :: 1 <= k < |errs| ==> errs[k] == tail[k - 1];
      }
    }
  }

  /** Every failed position at or after `from` appears in the error list. */
  lemma {:induction false} FailedFromComplete(rs: seq<SendResponse>, from: nat)
    requires from <= |rs|
    ensures forall i :: from <= i < |rs| && !rs[i].success ==> i in Indices(FailedFrom(rs, from))
    decreases |rs| - from
  {
    if from < |rs| {
      FailedFromComplete(rs, from + 1);
      var tail := FailedFrom(rs, from + 1);
      if !rs[from].success {
        var errs := [IndexedError(from, rs[from].error)] + tail;
        forall i | from < i < |rs| && !rs[i].success
          ensures i in Indices(errs)
        {
          var k :| 0 <= k < |tail| && Indices(tail)[k] == i;
          assert Indices(errs)[k + 1] == i;
        }
        assert Indices(errs)[0] == from;
      }
    }
  }

  /** The error list of a batch response names exactly the failed positions,
      in increasing order, each with its own error. */
  lemma FailedFromExact(rs: seq<SendResponse>)
    ensures var errs := FailedFrom(rs, 0);
      && ReportsFailuresFrom(rs, 0, errs)
      && (forall i :: 0 <= i < |rs| ==> (!rs[i].success <==> i in Indices(errs)))
  {
    FailedFromSound(rs, 0);
    FailedFromComplete(rs, 0);
  }

  /** The error list is empty exactly when every response succeeded. */
  lemma {:induction false} NoErrorsIffAllSucceeded(rs: seq<SendResponse>, from: nat)
    requires from <= |rs|
    ensures FailedFrom(rs, from) == [] <==> forall i :: from <= i < |rs| ==> rs[i].success
    decreases |rs| - from
  {
    if from < |rs| {
      NoErrorsIffAllSucceeded(rs, from + 1);
    }
  }

  /** The loop that collects the failed entries of a batch response. */
  method CollectErrors(rs: seq<SendResponse>) returns (errs: seq<IndexedError>)
    ensures errs == FailedFrom(rs, 0)
  {
    errs := [];
    for i := 0 to |rs|
      invariant errs + FailedFrom(rs, i) == FailedFrom(rs, 0)
    {
      if !rs[i].success {
        errs := errs + [IndexedError(i, rs[i].error)];
      }
    }
  }

  /** Get the client, build one message per notification, send them in one
      call, and collect the failed entries of the response. */
  function SendFCMNotificationBatch(st: State, env: Env, sdk: Sdk, tr: Transport, msgs: seq<NotificationMessage>): (r: BatchReport)
    ensures r.st == GetMessagingClient(st, env, sdk).st
    ensures GetMessagingClient(st, env, sdk).result.Err? ==>
              r.attempted.None? && r.result == Err(ClientUnavailable(GetMessagingClient(st, env, sdk).result.error))
    ensures GetMessagingClient(st, env, sdk).result.Ok? ==> r.attempted == Some(BuildBatch(msgs))
    ensures r.result.Err? && r.attempted.Some? ==>
              r.result.error.ProviderFailed?
              && tr.sendAll(GetMessagingClient(st, env, sdk).result.value, BuildBatch(msgs)) == Err(r.result.error.cause)
    ensures r.result.Ok? ==>
              GetMessagingClient(st, env, sdk).result.Ok?
              && var sent := tr.sendAll(GetMessagingClient(st, env, sdk).result.value, BuildBatch(msgs));
                 sent.Ok? && r.result.value == FailedFrom(sent.value.responses, 0)
  {
    var got := GetMessagingClient(st, env, sdk);
    match got.result
    case Err(e) => BatchReport(got.st, None, Err(ClientUnavailable(e)))
    case Ok(client) =>
      var messages := BuildBatch(msgs);
      match tr.sendAll(client, messages)
      case Err(cause) => BatchReport(got.st, Some(messages), Err(ProviderFailed(cause)))
      case Ok(response) => BatchReport(got.st, Some(messages), Ok(FailedFrom(response.responses, 0)))
  }
}

=== FILE: firebase.dfy ===
/** The lazily built messaging client (config/firebase.go).

    The package-level variables become an explicit `State` threaded through
    every call: the once-guard together with the outcome it recorded
    (`firebaseApp`, `firebaseInitErr`), and the client cache
    (`firebaseClient`). The environment, the filesystem and the SDK are
    parameters; the SDK's two calls are oracles that succeed or fail. */
module Firebase {
  import opened Wrappers

  const ProjectIdVar := "FIREBASE_PROJECT_ID"
  const CredentialsVar := "GOOGLE_APPLICATION_CREDENTIALS"

  /** Environment variables, and the paths that `os.Stat` can see. */
  datatype Env = Env(vars: map<string, string>, files: set<string>)

  datatype App = App(id: nat)
  datatype Client = Client(id: nat)

  /** `firebase.NewApp(projectId, credentialsFile)` and `app.Messaging()`. */
  datatype Sdk = Sdk(
    newApp: (string, string) -> Result<App, string>,
    messaging: App -> Result<Client, string>)

  datatype InitError =
    | MissingProjectId
    | MissingCredentials
    | CredentialsNotFound(path: string)
    | NewAppFailed(cause: string)

  datatype ClientError = InitFailed(initError: InitError) | MessagingFailed(cause: string)

  /** `once` is None until the guarded body has run, then holds its outcome. */
  datatype State = State(once: Option<Result<App, InitError>>, client: Option<Client>)

  /** The package variables at process start: nothing recorded, nothing cached. */
  const Fresh := State(None, None)

  /** A call's new state together with what the call returned. */
  datatype Step<+T> = Step(st: State, result: T)

  /** A cached client implies a successful initialization. */
  predicate Consistent(st: State) {
    st.client.Some? ==> st.once.Some? && st.once.value.Ok?
  }

  /** `os.Getenv`: unset reads as "". */
  function Getenv(env: Env, key: string): string {
    if key in env.vars then env.vars[key] else ""
  }

  /** Every configuration check that fails, in the order the code makes them. */
  function ConfigProblems(env: Env): seq<InitError> {
    var creds := Getenv(env, CredentialsVar);
    (if Getenv(env, ProjectIdVar) == "" then [MissingProjectId] else [])
    + (if creds == "" then [MissingCredentials]
       else if creds !in env.files then [CredentialsNotFound(creds)]
       else [])
  }

  /** The body run under the once-guard: three configuration checks, then the SDK. */
  function InitBody(env: Env, sdk: Sdk): (r: Result<App, InitError>)
    ensures ConfigProblems(env) != [] ==> r == Err(ConfigProblems(env)[0])
    ensures r.Ok? ==> ConfigProblems(env) == []
                      && sdk.newApp(Getenv(env, ProjectIdVar), Getenv(env, CredentialsVar)) == Ok(r.value)
    ensures ConfigProblems(env) == [] ==>
              (r.Ok? <==> sdk.newApp(Getenv(env, ProjectIdVar), Getenv(env, CredentialsVar)).Ok?)
    ensures ConfigProblems(env) == [] && sdk.newApp(Getenv(env, ProjectIdVar), Getenv(env, CredentialsVar)).Err? ==>
              r == Err(NewAppFailed(sdk.newApp(Getenv(env, ProjectIdVar), Getenv(env, CredentialsVar)).error))
  {
    var projectId := Getenv(env, ProjectIdVar);
    if projectId == "" then Err(MissingProjectId)
    else
      var credsPath := Getenv(env, CredentialsVar);
      if credsPath == "" then Err(MissingCredentials)
      else if credsPath !in env.files then Err(CredentialsNotFound(credsPath))
      else
        match sdk.newApp(projectId, credsPath)
        case Ok(app) => Ok(app)
        case Err(cause) => Err(NewAppFailed(cause))
  }

  /** A configuration problem is reported whatever the SDK would have done:
      the SDK is not reached. */
  lemma ConfigCheckedBeforeSdk(env: Env, sdk1: Sdk, sdk2: Sdk)
    requires ConfigProblems(env) != []
    ensures InitBody(env, sdk1) == InitBody(env, sdk2)
    ensures InitBody(env, sdk1).Err? && !InitBody(env, sdk1).error.NewAppFailed?
  {
  }

  /** Run the guarded body on the first call only; every call returns the
      outcome recorded by the first. */
  function InitializeFirebase(st: State, env: Env, sdk: Sdk): (out: Step<Result<App, InitError>>)
    ensures out.st.once == Some(out.result)
    ensures out.st.client == st.client
    ensures st.once.Some? ==> out.st == st
    ensures st.once.None? ==> out.result == InitBody(env, sdk)
    ensures Consistent(st) ==> Consistent(out.st)
  {
    match st.once
    case Some(outcome) => Step(st, outcome)
    case None =>
      var outcome := InitBody(env, sdk);
      Step(st.(once := Some(outcome)), outcome)
  }

  /** A second call returns what the first did and changes nothing, whatever
      environment and SDK it is given. */
  lemma InitializeIdempotent(st: State, env1: Env, sdk1: Sdk, env2: Env, sdk2: Sdk)
    ensures var first := InitializeFirebase(st, env1, sdk1);
            InitializeFirebase(first.st, env2, sdk2) == first
  {
  }

  /** Hand out the cached client, or initialize and ask the app for one,
      caching it only when that succeeds. */
  function GetMessagingClient(st: State, env: Env, sdk: Sdk): (out: Step<Result<Client, ClientError>>)
    ensures st.client.Some? ==> out == Step(st, Ok(st.client.value))
    ensures out.result.Ok? ==> out.st.client == Some(out.result.value)
    ensures out.result.Err? ==> out.st.client.None?
    ensures st.client.None? ==> out.st.once == InitializeFirebase(st, env, sdk).st.once
    ensures st.client.None? && InitializeFirebase(st, env, sdk).result.Err? ==>
              out.result == Err(InitFailed(InitializeFirebase(st, env, sdk).result.error))
    ensures st.client.None? && InitializeFirebase(st, env, sdk).result.Ok? ==>
              out.result == match sdk.messaging(InitializeFirebase(st, env, sdk).result.value)
                            case Ok(c) => Ok(c)
                            case Err(cause) => Err(MessagingFailed(cause))
    ensures Consistent(st) ==> Consistent(out.st)
  {
    if st.client.Some? then Step(st, Ok(st.client.value))
    else
      var init := InitializeFirebase(st, env, sdk);
      match init.result
      case Err(e) => Step(init.st, Err(InitFailed(e)))
      case Ok(app) =>
        match sdk.messaging(app)
        case Err(cause) => Step(init.st, Err(MessagingFailed(cause)))
        case Ok(client) => Step(init.st.(client := Some(client)), Ok(client))
  }

  /** The outside world as one call sees it. */
  datatype Call = Call(env: Env, sdk: Sdk)

  /** A sequence of `GetMessagingClient` calls, each in its own world. */
  function ClientCalls(st: State, calls: seq<Call>): (out: Step<seq<Result<Client, ClientError>>>)
    ensures |out.result| == |calls|
    decreases |calls|
  {
    if calls == [] then Step(st, [])
    else
      var first := GetMessagingClient(st, calls[0].env, calls[0].sdk);
      var rest := ClientCalls(first.st, calls[1..]);
      Step(rest.st, [first.result] + rest.result)
  }

  /** Once a client is cached, every later call returns it and the state
      stays as it is. */
  lemma {:induction false} CachedClientReturned(st: State, calls: seq<Call>)
    requires st.client.Some?
    ensures ClientCalls(st, calls).st == st
    ensures forall i :: 0 <= i < |calls| ==> ClientCalls(st, calls).result[i] == Ok(st.client.value)
    decreases |calls|
  {
    if calls != [] {
      CachedClientReturned(st, calls[1..]);
    }
  }

  /** A failed initialization is never retried: with no client cached, every
      later call reports that same failure, and nothing is cached. */
  lemma {:induction false} InitFailureSticks(st: State, calls: seq<Call>, e: InitError)
    requires st.once == Some(Err(e)) && st.client.None?
    ensures ClientCalls(st, calls).st == st
    ensures forall i :: 0 <= i < |calls| ==> ClientCalls(st, calls).result[i] == Err(InitFailed(e))
    decreases |calls|
  {
    if calls != [] {
      InitFailureSticks(st, calls[1..], e);
    }
  }

  /** Only the first call's environment and SDK ever decide the
      initialization outcome: the guarded body runs at most once. */
  lemma {:induction false} InitRunsOnce(st: State, calls: seq<Call>)
    requires Consistent(st) && calls != []
    ensures st.once.Some? ==> ClientCalls(st, calls).st.once == st.once
    ensures st.once.None? ==>
              ClientCalls(st, calls).st.once == Some(InitBody(calls[0].env, calls[0].sdk))
    decreases |calls|
  {
    var first := GetMessagingClient(st, calls[0].env, calls[0].sdk);
    assert first.st.once.Some?;
    if |calls| > 1 {
      InitRunsOnce(first.st, calls[1..]);
    }
  }

  /** Every sequence of client requests keeps a consistent state consistent. */
  lemma {:induction false} CallsKeepConsistent(st: State, calls: seq<Call>)
    requires Consistent(st)
    ensures Consistent(ClientCalls(st, calls).st)
    decreases |calls|
  {
    if calls != [] {
      CallsKeepConsistent(GetMessagingClient(st, calls[0].env, calls[0].sdk).st, calls[1..]);
    }
  }

  /** From process start, a client is only ever cached after a successful
      initialization, whatever sequence of requests is made. */
  lemma ConsistentFromFresh(calls: seq<Call>)
    ensures Consistent(Fresh)
    ensures Consistent(ClientCalls(Fresh, calls).st)
  {
    CallsKeepConsistent(Fresh, calls);
  }

  /** The app's `Messaging` call, unlike initialization, is tried again after
      it fails: a failed client request leaves the state ready to retry it. */
  lemma MessagingRetried(st: State, env1: Env, sdk1: Sdk, env2: Env, sdk2: Sdk, app: App)
    requires st.client.None? && st.once == Some(Ok(app))
    requires GetMessagingClient(st, env1, sdk1).result.Err?
    ensures GetMessagingClient(st, env1, sdk1).st == st
    ensures sdk2.messaging(app).Ok? ==>
              GetMessagingClient(st, env2, sdk2).result == Ok(sdk2.messaging(app).value)
  {
  }
}

=== FILE: sqs.dfy ===
/** The queue message format and its validation (handlers/sqs.go).

    JSON decoding itself is left abstract: a `Decoder` maps a message body
    either to nothing (the text does not decode) or to the members it found.
    `FromWire` then plays the part of decoding into a fresh Go struct, where
    every member that is absent (or null) keeps its zero value. */
module Sqs {
  import opened Wrappers

  type Payload = map<string, string>

  /** The decoded record. `data` is None for Go's nil map, which is what an
      absent `data` member leaves behind; the strings are "" when absent. */
  datatype NotificationMessage = NotificationMessage(
    actionType: string,
    fcmToken: string,
    topicName: string,
    title: string,
    body: string,
    data: Option<Payload>)

  /** The members of a JSON object that the record's field tags recognise,
      each present or absent. Members the record does not name are dropped. */
  datatype WireObject = WireObject(
    actionType: Option<string>,
    fcmToken: Option<string>,
    topicName: Option<string>,
    title: Option<string>,
    body: Option<string>,
    data: Option<Payload>)

  /** JSON decoding of a message body, as an oracle. */
  type Decoder = string -> Option<WireObject>

  datatype ParseError = Malformed | MissingToken | MissingActionType

  function OrZero(s: Option<string>): string {
    match s
    case Some(v) => v
    case None => ""
  }

  /** Decoding into a zero-valued record: absent members keep their zero value. */
  function FromWire(w: WireObject): (m: NotificationMessage)
    ensures w.actionType.Some? ==> m.actionType == w.actionType.value
    ensures w.fcmToken.Some? ==> m.fcmToken == w.fcmToken.value
    ensures w.topicName.Some? ==> m.topicName == w.topicName.value
    ensures w.title.Some? ==> m.title == w.title.value
    ensures w.body.Some? ==> m.body == w.body.value
    ensures w.actionType.None? ==> m.actionType == ""
    ensures w.fcmToken.None? ==> m.fcmToken == ""
    ensures w.topicName.None? ==> m.topicName == ""
    ensures w.title.None? ==> m.title == ""
    ensures w.body.None? ==> m.body == ""
    ensures m.data == w.data
  {
    NotificationMessage(
      OrZero(w.actionType), OrZero(w.fcmToken), OrZero(w.topicName),
      OrZero(w.title), OrZero(w.body), w.data)
  }

  function OmitEmpty(s: string): Option<string> {
    if s == "" then None else Some(s)
  }

  /** Encoding per the record's field tags: `actionType` and `fcmToken` are
      always written; the `omitempty` members are dropped when empty, and for
      the map that means nil or of length zero. */
  function ToWire(m: NotificationMessage): WireObject {
    WireObject(
      Some(m.actionType), Some(m.fcmToken), OmitEmpty(m.topicName),
      OmitEmpty(m.title), OmitEmpty(m.body),
      if m.data.Some? && |m.data.value| > 0 then m.data else None)
  }

  /** What an encode/decode round trip keeps of a payload: an empty map is
      omitted on the wire and comes back as nil. */
  function WirePayload(d: Option<Payload>): Option<Payload> {
    if d == Some(map[]) then None else d
  }

  predicate HasRequiredFields(m: NotificationMessage) {
    m.fcmToken != "" && m.actionType != ""
  }

  /** Decode a message body and insist on a token and an action type, in
      that order. The value of the action type is never looked at. */
  function ParseSQSMessage(decode: Decoder, body: string): (r: Result<NotificationMessage, ParseError>)
    ensures decode(body).None? ==> r == Err(Malformed)
    ensures decode(body).Some? && FromWire(decode(body).value).fcmToken == "" ==> r == Err(MissingToken)
    ensures (decode(body).Some? && FromWire(decode(body).value).fcmToken != ""
             && FromWire(decode(body).value).actionType == "") ==> r == Err(MissingActionType)
    ensures r.Ok? <==> decode(body).Some? && HasRequiredFields(FromWire(decode(body).value))
    ensures r.Ok? ==> r.value == FromWire(decode(body).value)
  {
    match decode(body)
    case None => Err(Malformed)
    case Some(w) =>
      var msg := FromWire(w);
      if msg.fcmToken == "" then Err(MissingToken)
      else if msg.actionType == "" then Err(MissingActionType)
      else Ok(msg)
  }

  /** A record encoded with the field tags decodes back to itself, except that
      an empty data map comes back nil. */
  lemma WireRoundTrip(m: NotificationMessage)
    ensures FromWire(ToWire(m)) == m.(data := WirePayload(m.data))
  {
  }

  /** Parsing the encoding of a record succeeds exactly when the record has a
      token and an action type, and then gives back the record itself (up to
      an empty data map). */
  lemma ParseEncoded(decode: Decoder, body: string, m: NotificationMessage)
    requires decode(body) == Some(ToWire(m))
    ensures ParseSQSMessage(decode, body).Ok? <==> HasRequiredFields(m)
    ensures HasRequiredFields(m) ==>
              ParseSQSMessage(decode, body) == Ok(m.(data := WirePayload(m.data)))
  {
  }

  /** The optional members: an absent title or body reads as "", an absent
      data map stays nil, and topic name, title, body and data are carried
      over unchanged when present. */
  lemma ParseOptionalFields(decode: Decoder, body: string)
    requires decode(body).Some?
    requires ParseSQSMessage(decode, body).Ok?
    ensures var w := decode(body).value; var m := ParseSQSMessage(decode, body).value;
      && (w.title.None? ==> m.title == "")
      && (w.body.None? ==> m.body == "")
      && (w.data.None? ==> m.data.None?)
      && (w.topicName.Some? ==> m.topicName == w.topicName.value)
      && (w.title.Some? ==> m.title == w.title.value)
      && (w.body.Some? ==> m.body == w.body.value)
      && m.data == w.data
      && (w.fcmToken.Some? && w.actionType.Some?)
  {
  }

  /** Both required members missing: the token is reported, because it is
      checked first. */
  lemma TokenCheckedFirst(decode: Decoder, body: string)
    requires decode(body).Some?
    requires decode(body).value.fcmToken in {None, Some("")}
    requires decode(body).value.actionType in {None, Some("")}
    ensures ParseSQSMessage(decode, body) == Err(MissingToken)
  {
  }

  /** Any non-empty action type is accepted, and two bodies that decode to
      the same members except for the action type parse to the same record
      except for the action type. */
  lemma ActionTypeNotInspected(d1: Decoder, b1: string, d2: Decoder, b2: string, action: string)
    requires d1(b1).Some? && d2(b2).Some?
    requires d2(b2).value == d1(b1).value.(actionType := Some(action))
    requires action != ""
    requires ParseSQSMessage(d1, b1).Ok?
    ensures ParseSQSMessage(d2, b2) == Ok(ParseSQSMessage(d1, b1).value.(actionType := action))
  {
  }
}

=== FILE: wrappers.dfy ===
/** Failure-carrying value types shared by the other modules. A Go pair
    `(value, error)` whose error is nil on success is modelled as a `Result`;
    a lone `error` return is an `Option` of the error (None is nil). */
module Wrappers {

  datatype Option<+T> = None | Some(value: T)

  datatype Result<+T, +E> = Ok(value: T) | Err(error: E)
}
